=== FILE: README.md ===
# Storefront delivery rules and cart store in Dafny

This project models the pure rules under the storefront app's UI:

- the delivery rule evaluator of the product page (`getDeliveryEstimate`,
  `checkDeliveryPossibility`, `isPincodeValid`);
- the countdown's per-tick arithmetic (`calculateTimeLeft`) and its display rule;
- the cart store (`addToCart`, `removeFromCart`, `updateQuantity`, `clearCart`);
- the cart screen's pincode validator, cart total and checkout gate;
- the pincode field's keystroke filter;
- the product list's next-page rule, `loadMore` guard and page flattening.

The clock is a parameter: a `LocalTime` made of a day index, hour, minute,
second and millisecond. A delivery date is a day offset (0 is today, 1 is
tomorrow, n is today plus n days), not a locale string. Instants are epoch
milliseconds computed from the `LocalTime`. Prices are integers in minor
currency units. The pincode lookup result, the lookup's error text and the
paginated query's state are inputs.

Modules, one per source file:

- `DeliveryEstimation` for `src/components/DeliveryEstimation.tsx`;
- `DeliveryCountdown` for `src/components/DeliveryCountdown.tsx`;
- `DeliveryFlow` for how `DeliveryEstimation.tsx` renders the countdown;
- `CartContext` for `src/context/CartContext.tsx`;
- `CartList` for `src/components/CartList.tsx`;
- `PincodeInput` for `src/components/PincodeInput.tsx`;
- `ProductList` for `src/components/ProductList.tsx`;
- helpers: `Options`, `Strings` (digits, decimal rendering, `padStart`) and `Products`.

`src/types/product.ts` is not part of this model. The `Product` record
holds the fields that `src/components/ProductCard.tsx` (name, image, price,
stock flag) and `src/context/CartContext.tsx` (`product_id`) use.

## Model

| member | source | states |
|---|---|---|
| DeliveryEstimation.SameDayByMinuteOfDay | src/components/DeliveryEstimation.tsx:74-80 | on a valid clock the same-day test `hour < h or (hour == h and minute == 0)` is exactly "minute of day at most h:00", so 17:05 already fails |
| DeliveryEstimation.CutoffRule | src/components/DeliveryEstimation.tsx:80-94 | the cutoff-provider estimate is dated today exactly when the same-day test holds, and tomorrow otherwise; it has a cutoff (that day at h:00:00.000) exactly when dated today; the countdown flag matches the cutoff; the message matches the day |
| DeliveryEstimation.ClampTat | src/components/DeliveryEstimation.tsx:116-120 | the General Partners window is always in [2, 5]; values below 2 become 2, values above 5 become 5, values inside are kept |
| DeliveryEstimation.ClampTatIdempotent | src/components/DeliveryEstimation.tsx:116-120 | clamping an already clamped turnaround changes nothing |
| DeliveryEstimation.DaysMessage | src/components/DeliveryEstimation.tsx:136 | the message is "Delivery in " then a digit string that reads back as the day count, then " days"; the digits have no leading zero and are one character long exactly below ten |
| DeliveryEstimation.GetDeliveryEstimate | src/components/DeliveryEstimation.tsx:54-143 | there is an estimate exactly when the product is in stock, lookup data exists and the provider is one of the three known strings; every estimate shows a countdown iff it has a cutoff; its offset is in [0, 5]; a cutoff is always on the current day with offset 0 |
| DeliveryEstimation.RecordAfterEstimate | src/components/DeliveryEstimation.tsx:114-120 | the lookup record after estimation keeps its provider; it is unchanged unless it is an in-stock General Partners record, whose turnaround is overwritten by the clamped value |
| DeliveryEstimation.EstimateStableUnderWriteBack | src/components/DeliveryEstimation.tsx:114-139 | re-evaluating the written-back record gives the same estimate, and writing back twice is writing back once |
| DeliveryEstimation.ProviderAEstimate | src/components/DeliveryEstimation.tsx:78-94 | Provider A up to 17:00 to the minute: same-day, today, cutoff today 17:00:00.000, countdown on; from 17:01: next-day, tomorrow, no cutoff, no countdown |
| DeliveryEstimation.ProviderBEstimate | src/components/DeliveryEstimation.tsx:96-112 | the same rule for Provider B with a 09:00 cutoff |
| DeliveryEstimation.GeneralPartnersEstimate | src/components/DeliveryEstimation.tsx:114-139 | General Partners is always estimated: offset clamp(tat, 2, 5), the message names that number, no cutoff or countdown, and the clock does not matter |
| DeliveryEstimation.EstimateIgnoresSeconds | src/components/DeliveryEstimation.tsx:74-75 | two clocks on the same day, hour and minute give the same estimate, so 17:00:30 is still same-day |
| DeliveryEstimation.LookupErrorMessage | src/components/DeliveryEstimation.tsx:159 | the lookup error message is never empty; it is the validation error when that error is non-empty, and "Invalid pincode" otherwise |
| DeliveryEstimation.CheckDeliveryPossibility | src/components/DeliveryEstimation.tsx:147-193 | possible iff not an error; an error iff out of stock or no lookup data; out of stock gives the fixed out-of-stock verdict before lookup data is looked at; a warning iff in stock, with data, and the hour reaches the provider's cutoff hour (17 for A, 9 for B, never for others); warnings carry the cutoff text, successes an empty message |
| DeliveryEstimation.StatusConsistentWithEstimate | src/components/DeliveryEstimation.tsx:147-162 | an error verdict always comes with no estimate; no estimate without an error happens only for an unrecognised provider, which gets a silent success |
| DeliveryEstimation.CutoffBoundaryDisagreement | src/components/DeliveryEstimation.tsx:80-186 | for Provider A or B the estimate says same-day and the verdict warns at the same time exactly at hh:00 of the cutoff hour; at every time at least one of the two holds |
| DeliveryEstimation.EndToEndScenarios | src/components/DeliveryEstimation.tsx:54-193 | Provider A at 12:00 with stock: same-day with a 17:00 cutoff and a silent success; General Partners with tat 7: "Delivery in 5 days", 5 days out |
| DeliveryCountdown.Decompose | src/components/DeliveryCountdown.tsx:29-31 | for a positive difference, minutes and seconds are below 60 and `h*3600000 + m*60000 + s*1000 <= d < that + 1000` |
| DeliveryCountdown.DecomposeUnique | src/components/DeliveryCountdown.tsx:29-31 | any hours/minutes/seconds triple with those bounds that reconstructs the difference is the floor decomposition |
| DeliveryCountdown.CalculateTimeLeft | src/components/DeliveryCountdown.tsx:14-34 | a missing cutoff keeps the current state (initially zeros); a non-positive difference gives zeros; a positive one gives the bounded, reconstructing decomposition |
| DeliveryCountdown.TimeLeftCountsWholeSeconds | src/components/DeliveryCountdown.tsx:22-31 | with a cutoff, the state's total seconds are the whole seconds left, and 0 once the cutoff is reached |
| DeliveryCountdown.TimeLeftNonIncreasing | src/components/DeliveryCountdown.tsx:22-31 | a later tick never shows more time left than an earlier one |
| DeliveryCountdown.ExpiredIffUnderOneSecond | src/components/DeliveryCountdown.tsx:22-31 | the state is all zeros exactly when less than one second is left, including 0 < d < 1000 |
| DeliveryCountdown.ExpiredStaysExpired | src/components/DeliveryCountdown.tsx:22-26 | once expired, every later tick stays expired |
| DeliveryCountdown.Render | src/components/DeliveryCountdown.tsx:45-67 | the "no longer available" text iff all three components are zero; otherwise each block is a digit string of length at least 2 that reads back as its component, exactly two characters for components below 100 (minutes and seconds below 60), and with no leading zero from ten on |
| DeliveryCountdown.NinetySecondCountdown | src/components/DeliveryCountdown.tsx:17-51 | a cutoff 90 s ahead shows 00:01:30, and 91 s later shows the "no longer available" text |
| Strings.NatToString | src/components/DeliveryEstimation.tsx:136 | the decimal rendering is a non-empty digit string with no leading zero, one digit long exactly below ten |
| Strings.ParseNatToString | src/components/DeliveryEstimation.tsx:136 | reading the decimal rendering back gives the number |
| Strings.PadStart | src/components/DeliveryCountdown.tsx:56 | `padStart`: a string already `width` long is unchanged; a shorter one becomes `width` long, ends with the original and starts with fill characters |
| Strings.TwoDigits | src/components/DeliveryCountdown.tsx:56-66 | `String(n).padStart(2,'0')`: one leading '0' below ten, unchanged from ten on, at least two digits, and reads back as n |
| DeliveryFlow.CountdownHasCutoff | src/components/DeliveryEstimation.tsx:242-262 | whenever the countdown is mounted, the estimate has a cutoff and is same-day, so `cutoffTime!` never sees null |
| DeliveryFlow.FirstTick | src/components/DeliveryCountdown.tsx:14-37 | the countdown's first tick for an estimate with a cutoff shows the whole seconds left until it, and zero once it has passed, with minutes and seconds below 60, which fixes the hours/minutes/seconds triple; without a cutoff it leaves the initial all-zero state |
| DeliveryFlow.SameDayCountdown | src/components/DeliveryEstimation.tsx:242-262 | a same-day estimate of Provider A or B mounts the countdown; it shows at most h hours; it shows the "no longer available" text exactly from one second before h:00 on, which covers the whole h:00 minute that the estimate still calls same-day |
| CartContext.IndexOf | src/context/CartContext.tsx:34-36 | the position found holds the id, and no earlier item does |
| CartContext.IndexOfUnique | src/context/CartContext.tsx:34-36 | in a valid cart every position holding the id is the one `find` returns |
| CartContext.IdOnlyAtIndex | src/context/CartContext.tsx:34-36 | in a valid cart no position other than the one `find` returns holds the id |
| CartContext.IncrementWhere | src/context/CartContext.tsx:39-43 | same length; each item with the id has its quantity raised by one; every other item is unchanged |
| CartContext.IncrementSoleOccurrence | src/context/CartContext.tsx:39-43 | when the id occurs only at position k, the `map` replaces just that item by one with quantity one higher |
| CartContext.IncrementWhereSplice | src/context/CartContext.tsx:38-43 | in a valid cart holding the id, the `map` is the cart with the found item's quantity raised by one and every other position untouched |
| CartContext.SetQuantityWhere | src/context/CartContext.tsx:62-68 | same length; each item with the id gets the new quantity; every other item is unchanged |
| CartContext.AddToCart | src/context/CartContext.tsx:32-48 | for a present id: same length, that item's quantity goes up by one, its stored product is kept, and in a valid cart nothing else changes; for a new id: `{product, 1}` is appended; the invariant is kept; the id is present afterwards |
| CartContext.RemoveFromCart | src/context/CartContext.tsx:50-54 | no item with the id is left; every other item is kept; no item is invented; an absent id changes nothing |
| CartContext.WithoutIdMembers | src/context/CartContext.tsx:52 | the `filter` keeps exactly the items with another id and never lengthens the list |
| CartContext.WithoutIdAbsent | src/context/CartContext.tsx:52 | a list in which no item has the id passes the `filter` unchanged |
| CartContext.WithoutIdAppend | src/context/CartContext.tsx:52 | the `filter` distributes over concatenation |
| CartContext.WithoutIdSoleOccurrence | src/context/CartContext.tsx:52 | when the id occurs only at position k, the `filter` deletes just that position |
| CartContext.RemoveFromCartAppend | src/context/CartContext.tsx:50-54 | removal distributes over concatenation |
| CartContext.RemoveFromCartDeletesOne | src/context/CartContext.tsx:50-54 | in a valid cart holding the id, removal deletes exactly that item and keeps the rest in order |
| CartContext.DeleteAtValid | src/context/CartContext.tsx:50-54 | deleting one position of a valid cart leaves ids unique and quantities at least 1 |
| CartContext.RemoveFromCartValid | src/context/CartContext.tsx:50-54 | removal keeps unique ids and quantities of at least 1 |
| CartContext.UpdateQuantity | src/context/CartContext.tsx:56-69 | a quantity below 1 is a removal; otherwise same length, ids and products kept, only the matching item gets the quantity; an absent id is a no-op; the invariant is kept |
| CartContext.ClearCart | src/context/CartContext.tsx:71-73 | the cleared cart is valid and holds no product |
| CartContext.AddTwiceMerges | src/context/CartContext.tsx:32-48 | adding a new product twice gives one item of quantity 2, not two items |
| CartList.ValidatePincode | src/components/CartList.tsx:27-32 | empty gives "Pincode is required"; any non-digit gives the digits message before the length is looked at; all digits with a wrong length gives the length message; the result is empty iff the input is six digits |
| CartList.NonDigitBeforeLength | src/components/CartList.tsx:29-30 | one non-digit anywhere decides the message, whatever the length |
| CartList.TotalAppend | src/components/CartList.tsx:52-55 | the total is additive over concatenation |
| CartList.TotalAmount | src/components/CartList.tsx:52-55 | the left-to-right `reduce` from 0 equals the sum of price times quantity, and is 0 for an empty cart |
| CartList.SplitAt | src/components/CartList.tsx:52-55 | the total is the total before position k plus that line plus the total after it |
| CartList.SubtotalOneMore | src/components/CartList.tsx:52-55 | one more unit of an item raises its line total by its price |
| CartList.TotalReplaceAt | src/components/CartList.tsx:52-55 | replacing the line at position k changes the total by the new line total minus the old one |
| CartList.TotalAfterIncrement | src/components/CartList.tsx:52-55 | raising the quantity of the one item with the id in a valid cart raises the total by that item's unit price |
| CartList.TotalAfterAddExisting | src/components/CartList.tsx:52-55 | adding a product already in a valid cart raises the total by the stored item's price |
| CartList.TotalAfterAdd | src/components/CartList.tsx:52-55 | adding a product raises the total by the stored item's price when present, by the new product's price otherwise |
| CartList.TotalAfterRemove | src/components/CartList.tsx:52-55 | removing a present product lowers the total by its line total; an absent one changes nothing |
| CartList.HandlePincodeChange | src/components/CartList.tsx:34-37 | the field keeps the typed text, and its error is the validator's message for it, empty iff the text is six digits |
| CartList.LookupFailed | src/components/CartList.tsx:46-48 | a failed lookup keeps the text and sets the error to "Invalid pincode or service not available in this area" |
| CartList.GatesAfterChange | src/components/CartList.tsx:34-44 | after a keystroke the lookup is enabled iff the text is six digits; checkout is enabled iff it is six digits and lookup data is present |
| CartList.CheckoutGate | src/components/CartList.tsx:44-70 | `isValidForCheckout` is the lookup gate plus lookup data, with no stock or cutoff condition; after a failed lookup both gates are closed |
| CartList.Footer | src/components/CartList.tsx:67-131 | an empty cart has no footer and so no checkout button; otherwise the button is enabled iff `isValidForCheckout`, and reads "Proceed to Checkout" exactly when enabled and "Enter Valid Pincode to Continue" otherwise |
| CartList.CheckoutPossible | src/components/CartList.tsx:34-131 | checkout can be pressed iff the cart has items, the pincode has six characters and no error, and lookup data is present; after a keystroke, iff the text is six digits and data is present |
| PincodeInput.HandleChangeText | src/components/PincodeInput.tsx:24-29 | accepted text (digits only, at most 6) becomes the value; rejected text leaves the value unchanged; a valid value stays valid |
| PincodeInput.ApplyEdits | src/components/PincodeInput.tsx:24-29 | a valid value stays valid through any series of keystrokes, and the result is the start value or one of the typed texts |
| PincodeInput.ClearingAccepted | src/components/PincodeInput.tsx:26 | the empty text is always accepted |
| PincodeInput.ReachableValuesNeverNonDigit | src/components/PincodeInput.tsx:24-29 | every value reached from the empty field is digits only and at most 6 long, so the cart validator never gives the digits message for it |
| PincodeInput.CheckmarkIsValidStyleNotLoading | src/components/PincodeInput.tsx:36-55 | the checkmark is shown iff the valid style applies and the field is not loading |
| PincodeInput.StyleAfterChange | src/components/PincodeInput.tsx:36 | with the cart screen's validator supplying the error, after a keystroke the field has the valid style exactly for six digits and the error style otherwise, never the plain style |
| ProductList.GetNextPageParam | src/components/ProductList.tsx:34-38 | an empty last page gives no next page; there is a next page iff the page has items and `page < total_pages`; it is `page + 1`, so `page < p' <= total_pages` |
| ProductList.FetchesConsecutivePages | src/components/ProductList.tsx:32-46 | the first call fetches page 1, so the first loaded page is numbered 1; with pages 1..n loaded, `loadMore` asks for page n+1 |
| ProductList.LoadMore | src/components/ProductList.tsx:32-46 | `loadMore` fetches nothing exactly when a fetch is in flight, nothing is loaded, the last page is empty or the last page is not before `total_pages`; otherwise it asks for the page after the last loaded one, which is at most `total_pages` |
| ProductList.LoadMoreNeverRepeatsPage | src/components/ProductList.tsx:32-46 | with pages 1..n loaded, `loadMore` asks for page n+1, which no loaded page has, and loading it keeps the pages numbered 1..n+1 |
| ProductList.Flatten | src/components/ProductList.tsx:90 | a product is listed iff some loaded page holds it; the first page's items come first in order; no pages give the empty list and one page gives exactly its items (with `FlattenAppend` this fixes the result as the in-order concatenation) |
| ProductList.FlattenAppend | src/components/ProductList.tsx:90 | loading a further page appends its items at the end |
| ProductList.AllProducts | src/components/ProductList.tsx:90 | no data gives the empty list; otherwise the list is the flattening of the loaded pages, so a product is listed iff some page holds it |

## Left out

- Network and caching: the fetch wrappers in `src/services/api.ts` and the query library's caching, retry, request keying and `onError` plumbing are not modelled. Their results (lookup data or none, error text, the loaded pages, `isFetchingNextPage`) are parameters; `hasNextPage` is derived from the loaded pages as the query library does.
- Timers and alerts: the one-second `setInterval`/`clearInterval` lifecycle of the countdown and the out-of-stock `Alert.alert` are not modelled. One call of `CalculateTimeLeft` is one tick.
- Formatting: `toLocaleDateString` dates are day offsets. The `toFixed(2)` price rendering is left out.
- Time zones: local time and epoch milliseconds are related by `LocalTime.EpochMillis`, which has no daylight-saving shifts.
- Numbers: prices, quantities and the turnaround are integers. Fractional or NaN values of these JavaScript numbers, and floating-point rounding of the total, are not modelled.
- DeliveryEstimation.IsPincodeValid: a predicate with no contract of its own. `CartList.ValidatePincode` and `CartList.GatesAfterChange` state its meaning.
- DeliveryEstimation.ProviderOf: the provider string classification (`src/components/DeliveryEstimation.tsx:77`, :96, :114) has no contract of its own. `GetDeliveryEstimate`, `ProviderAEstimate`, `ProviderBEstimate` and `GeneralPartnersEstimate` state what each string leads to.
- DeliveryEstimation.CutoffHourReached: the verdict's hour test (`src/components/DeliveryEstimation.tsx:167-186`) has no contract of its own. `CheckDeliveryPossibility` and `CutoffBoundaryDisagreement` state its meaning.
- CartList.Total: the `reduce` sum (`src/components/CartList.tsx:52-55`) is a plain recursive definition. `TotalAmount`, `TotalAppend`, `SplitAt`, `TotalAfterAdd` and `TotalAfterRemove` state its properties.
- CartList.LookupEnabled: the lookup's `enabled` flag (`src/components/CartList.tsx:44`) has no contract of its own. `GatesAfterChange` and `CheckoutGate` state its meaning.
- CartList.IsValidForCheckout: the `isValidForCheckout` test (`src/components/CartList.tsx:70`) has no contract of its own. `GatesAfterChange`, `CheckoutGate`, `Footer` and `CheckoutPossible` state its meaning.
- PincodeInput.Accepts: the keystroke filter's test (`src/components/PincodeInput.tsx:26`) has no contract of its own. `HandleChangeText`, `ApplyEdits`, `ClearingAccepted` and `ReachableValuesNeverNonDigit` state its meaning.
- PincodeInput.ShowCheckmark: the checkmark condition (`src/components/PincodeInput.tsx:55`) has no contract of its own. `CheckmarkIsValidStyleNotLoading` states its meaning.
- ProductList.HasNextPage: the query library derives `hasNextPage` from `getNextPageParam`, and the model does the same with no contract of its own. `LoadMore` and `LoadMoreNeverRepeatsPage` state what it guarantees.
- ProductList.PageToFetch: the `pageParam = 1` default (`src/components/ProductList.tsx:32`) has only the default spelled out as its contract. `FetchesConsecutivePages` and `LoadMoreNeverRepeatsPage` state its meaning.
- PincodeInput.InputStyle: the nested style choice (`src/components/PincodeInput.tsx:36`) has only its branches as its contract. `StyleAfterChange` and `CheckmarkIsValidStyleNotLoading` state its meaning.
- DeliveryEstimation.SameDayEligible: the same-day test (`src/components/DeliveryEstimation.tsx:80`, :98) has no contract of its own. `SameDayByMinuteOfDay`, `CutoffRule` and `EstimateIgnoresSeconds` state its meaning.
- DeliveryFlow.CountdownShown: the mount condition of the countdown (`src/components/DeliveryEstimation.tsx:242`, :259) has no contract of its own. `CountdownHasCutoff` and `SameDayCountdown` state its meaning.
- CartContext.WithoutId: the `filter` of `removeFromCart` (`src/context/CartContext.tsx:52`) has no contract of its own. `WithoutIdMembers`, `WithoutIdAbsent`, `WithoutIdAppend`, `WithoutIdSoleOccurrence` and `RemoveFromCart` state its meaning.
- CartList.Subtotal: the line total `price * quantity` (`src/components/CartList.tsx:53`) has no contract of its own. `SubtotalOneMore`, `TotalReplaceAt` and `TotalAmount` state its meaning.
- One clock reading: the source reads the clock separately for the estimate (`src/components/DeliveryEstimation.tsx:57`), for the verdict (`src/components/DeliveryEstimation.tsx:164`, first computed at :195) and in the countdown after it mounts (`src/components/DeliveryCountdown.tsx:18`). The model passes one `now` to all three. So `CutoffBoundaryDisagreement`, `StatusConsistentWithEstimate` and `SameDayCountdown` hold for one shared reading; readings taken milliseconds apart across a minute or hour boundary can disagree further.
- Rendering of the status bar (`deliveryStatus.message && ...`) and all style sheets, screens, navigation and presentational components are UI with no rules.

## Behaviour notes

- An unrecognised provider string gets no estimate and a success verdict with an empty message. `StatusConsistentWithEstimate` states this gap.
- For General Partners, the clamped turnaround is written back into the lookup record. The model keeps this (`RecordAfterEstimate`). `EstimateStableUnderWriteBack` shows the write-back cannot change a later estimate.
- The same-day test compares only hours and minutes. So all of 17:00:00–17:00:59 counts as same-day for Provider A, while the countdown already shows "no longer available" and the verdict already warns (`EstimateIgnoresSeconds`, `SameDayCountdown`, `CutoffBoundaryDisagreement`).

=== FILE: cart_context.dfy ===
/**
 * The in-memory cart store: an ordered list of (product, quantity) items and
 * its four updates, each a pure function from the old list to the new one.
 */
module CartContext {
  import opened Products

  datatype CartItem = CartItem(product: Product, quantity: int)

  type Cart = seq<CartItem>

  function IdOf(item: CartItem): int {
    item.product.productId
  }

  /** At most one item per product id. */
  predicate UniqueIds(c: Cart) {
    forall i, j :: 0 <= i < j < |c| ==> IdOf(c[i]) != IdOf(c[j])
  }

  /** No item with a quantity below 1. */
  predicate PositiveQuantities(c: Cart) {
    forall i :: 0 <= i < |c| ==> c[i].quantity >= 1
  }

  /** The store's invariant. */
  predicate Valid(c: Cart) {
    UniqueIds(c) && PositiveQuantities(c)
  }

  predicate Contains(c: Cart, id: int) {
    exists i :: 0 <= i < |c| && IdOf(c[i]) == id
  }

  /** The position of the first item with the given id (`find`). */
  function IndexOf(c: Cart, id: int): (k: nat)
    requires Contains(c, id)
    ensures k < |c| && IdOf(c[k]) == id
    ensures forall j :: 0 <= j < k ==> IdOf(c[j]) != id
  {
    if IdOf(c[0]) == id then 0
    else
      assert Contains(c[1..], id) by {
        var i :| 0 <= i < |c| && IdOf(c[i]) == id;
        assert IdOf(c[1..][i - 1]) == id;
      }
      1 + IndexOf(c[1..], id)
  }

  /** In a valid cart the id names exactly one position. */
  lemma IndexOfUnique(c: Cart, id: int, j: int)
    requires UniqueIds(c) && Contains(c, id)
    requires 0 <= j < |c| && IdOf(c[j]) == id
    ensures j == IndexOf(c, id)
  {
  }

  /** The `map` of `addToCart`: one more of every item with the given id. */
  function IncrementWhere(c: Cart, id: int): (r: Cart)
    ensures |r| == |c|
    ensures forall j :: 0 <= j < |c| ==>
      r[j] == if IdOf(c[j]) == id then c[j].(quantity := c[j].quantity + 1) else c[j]
  {
    if |c| == 0 then []
    else
      var head := if IdOf(c[0]) == id then c[0].(quantity := c[0].quantity + 1) else c[0];
      [head] + IncrementWhere(c[1..], id)
  }

  /** The `map` of `updateQuantity`: the given quantity on every item with the given id. */
  function SetQuantityWhere(c: Cart, id: int, quantity: int): (r: Cart)
    ensures |r| == |c|
    ensures forall j :: 0 <= j < |c| ==>
      r[j] == if IdOf(c[j]) == id then c[j].(quantity := quantity) else c[j]
  {
    if |c| == 0 then []
    else
      var head := if IdOf(c[0]) == id then c[0].(quantity := quantity) else c[0];
      [head] + SetQuantityWhere(c[1..], id, quantity)
  }

  /**
   * `addToCart`: a product already in the cart has its quantity raised by
   * one and keeps its stored record; a new one is appended with quantity 1.
   */
  function AddToCart(c: Cart, p: Product): (r: Cart)
    ensures Contains(c, p.productId) ==>
      && |r| == |c|
      && var k := IndexOf(c, p.productId);
         && r[k].quantity == c[k].quantity + 1
         && r[k].product == c[k].product
         && (UniqueIds(c) ==> forall j :: 0 <= j < |c| && j != k ==> r[j] == c[j])
    ensures !Contains(c, p.productId) ==> r == c + [CartItem(p, 1)]
    ensures Valid(c) ==> Valid(r)
    ensures Contains(r, p.productId)
  {
    if Contains(c, p.productId) then
      var r := IncrementWhere(c, p.productId);
      var k := IndexOf(c, p.productId);
      assert IdOf(r[k]) == p.productId;
      r
    else
      var r := c + [CartItem(p, 1)];
      assert IdOf(r[|c|]) == p.productId;
      r
  }

  /** In a valid cart the id occurs at no position other than its index. */
  lemma IdOnlyAtIndex(c: Cart, id: int)
    requires UniqueIds(c) && Contains(c, id)
    ensures forall j :: 0 <= j < |c| && j != IndexOf(c, id) ==> IdOf(c[j]) != id
  {
    var k := IndexOf(c, id);
    forall j | k < j < |c|
      ensures IdOf(c[j]) != id
    {
      assert IdOf(c[k]) != IdOf(c[j]);
    }
  }

  /** Incrementing at an id that occurs only at position `k` changes just that position. */
  lemma IncrementSoleOccurrence(c: Cart, id: int, k: int)
    requires 0 <= k < |c| && IdOf(c[k]) == id
    requires forall j :: 0 <= j < |c| && j != k ==> IdOf(c[j]) != id
    ensures IncrementWhere(c, id) == c[..k] + [c[k].(quantity := c[k].quantity + 1)] + c[k + 1..]
  {
    var r := IncrementWhere(c, id);
    var s := c[..k] + [c[k].(quantity := c[k].quantity + 1)] + c[k + 1..];
    assert |r| == |s|;
    forall j | 0 <= j < |r|
      ensures r[j] == s[j]
    {
      if j < k {
        assert s[j] == c[j];
      } else if j > k {
        assert s[j] == c[j];
      }
    }
  }

  /** In a valid cart holding the id, the increment touches exactly one position. */
  lemma IncrementWhereSplice(c: Cart, id: int)
    requires UniqueIds(c) && Contains(c, id)
    ensures var k := IndexOf(c, id);
      IncrementWhere(c, id) == c[..k] + [c[k].(quantity := c[k].quantity + 1)] + c[k + 1..]
  {
    IdOnlyAtIndex(c, id);
    IncrementSoleOccurrence(c, id, IndexOf(c, id));
  }

  /** The items whose id differs from `id`, in their original order. */
  function WithoutId(c: Cart, id: int): Cart {
    if |c| == 0 then []
    else if IdOf(c[0]) == id then WithoutId(c[1..], id)
    else [c[0]] + WithoutId(c[1..], id)
  }

  /** The filter keeps exactly the items with another id, and never grows the list. */
  lemma {:induction false} WithoutIdMembers(c: Cart, id: int)
    ensures forall x :: x in WithoutId(c, id) <==> x in c && IdOf(x) != id
    ensures |WithoutId(c, id)| <= |c|
    decreases |c|
  {
    if |c| > 0 {
      WithoutIdMembers(c[1..], id);
      assert c == [c[0]] + c[1..];
    }
  }

  /** A list without the id passes through the filter unchanged. */
  lemma {:induction false} WithoutIdAbsent(c: Cart, id: int)
    requires forall j :: 0 <= j < |c| ==> IdOf(c[j]) != id
    ensures WithoutId(c, id) == c
    decreases |c|
  {
    if |c| > 0 {
      var tail := c[1..];
      forall j | 0 <= j < |tail|
        ensures IdOf(tail[j]) != id
      {
        assert tail[j] == c[j + 1];
      }
      WithoutIdAbsent(tail, id);
      assert c == [c[0]] + tail;
    }
  }

  /** The filter distributes over concatenation. */
  lemma {:induction false} WithoutIdAppend(a: Cart, b: Cart, id: int)
    ensures WithoutId(a + b, id) == WithoutId(a, id) + WithoutId(b, id)
    decreases |a|
  {
    if |a| == 0 {
      assert a + b == b;
    } else {
      assert (a + b)[1..] == a[1..] + b;
      WithoutIdAppend(a[1..], b, id);
    }
  }

  /** Filtering an id that occurs only at position `k` deletes just that position. */
  lemma {:induction false} WithoutIdSoleOccurrence(c: Cart, id: int, k: int)
    requires 0 <= k < |c| && IdOf(c[k]) == id
    requires forall j :: 0 <= j < |c| && j != k ==> IdOf(c[j]) != id
    ensures WithoutId(c, id) == c[..k] + c[k + 1..]
    decreases |c|
  {
    var tail := c[1..];
    if k == 0 {
      forall j | 0 <= j < |tail|
        ensures IdOf(tail[j]) != id
      {
        assert tail[j] == c[j + 1];
      }
      WithoutIdAbsent(tail, id);
    } else {
      forall j | 0 <= j < |tail| && j != k - 1
        ensures IdOf(tail[j]) != id
      {
        assert tail[j] == c[j + 1];
      }
      WithoutIdSoleOccurrence(tail, id, k - 1);
      assert [c[0]] + (tail[..k - 1] + tail[k..]) == c[..k] + c[k + 1..];
    }
  }

  /** The `filter` of `removeFromCart`: every item with the given id dropped, the rest kept in order. */
  function RemoveFromCart(c: Cart, id: int): (r: Cart)
    ensures !Contains(r, id)
    ensures forall j :: 0 <= j < |r| ==> r[j] in c
    ensures forall j :: 0 <= j < |c| && IdOf(c[j]) != id ==> c[j] in r
    ensures !Contains(c, id) ==> r == c
    ensures |r| <= |c|
  {
    WithoutIdMembers(c, id);
    if !Contains(c, id) then
      WithoutIdAbsent(c, id);
      WithoutId(c, id)
    else
      WithoutId(c, id)
  }

  /** Removal distributes over concatenation. */
  lemma RemoveFromCartAppend(a: Cart, b: Cart, id: int)
    ensures RemoveFromCart(a + b, id) == RemoveFromCart(a, id) + RemoveFromCart(b, id)
  {
    WithoutIdAppend(a, b, id);
  }

  /**
   * In a valid cart holding the id, removal deletes exactly that item and
   * keeps the others in their original order.
   */
  lemma RemoveFromCartDeletesOne(c: Cart, id: int)
    requires UniqueIds(c) && Contains(c, id)
    ensures var k := IndexOf(c, id);
      RemoveFromCart(c, id) == c[..k] + c[k + 1..]
  {
    IdOnlyAtIndex(c, id);
    WithoutIdSoleOccurrence(c, id, IndexOf(c, id));
  }

  /** Deleting one position of a valid cart leaves a valid cart. */
  lemma DeleteAtValid(c: Cart, k: int)
    requires Valid(c) && 0 <= k < |c|
    ensures Valid(c[..k] + c[k + 1..])
  {
    var r := c[..k] + c[k + 1..];
    assert |r| == |c| - 1;
    forall i | 0 <= i < |r|
      ensures r[i] == c[if i < k then i else i + 1]
    {
    }
    forall i, j | 0 <= i < j < |r|
      ensures IdOf(r[i]) != IdOf(r[j])
    {
      var i' := if i < k then i else i + 1;
      var j' := if j < k then j else j + 1;
      assert r[i] == c[i'] && r[j] == c[j'];
    }
  }

  /** Removal keeps the invariant: deleting from a valid cart leaves a valid cart. */
  lemma RemoveFromCartValid(c: Cart, id: int)
    requires Valid(c)
    ensures Valid(RemoveFromCart(c, id))
  {
    if Contains(c, id) {
      RemoveFromCartDeletesOne(c, id);
      DeleteAtValid(c, IndexOf(c, id));
    }
  }

  /**
   * `updateQuantity`: a quantity below 1 removes the item; otherwise only the
   * item with that id gets the new quantity, and an absent id changes nothing.
   */
  function UpdateQuantity(c: Cart, id: int, quantity: int): (r: Cart)
    ensures quantity < 1 ==> r == RemoveFromCart(c, id)
    ensures quantity >= 1 ==>
      && |r| == |c|
      && forall j :: 0 <= j < |c| ==>
           && IdOf(r[j]) == IdOf(c[j]) && r[j].product == c[j].product
           && r[j].quantity == if IdOf(c[j]) == id then quantity else c[j].quantity
    ensures !Contains(c, id) ==> r == c
    ensures Valid(c) ==> Valid(r)
  {
    if quantity < 1 then
      if Valid(c) then RemoveFromCartValid(c, id); RemoveFromCart(c, id)
      else RemoveFromCart(c, id)
    else
      SetQuantityWhere(c, id, quantity)
  }

  /** `clearCart`: the empty cart, which is valid and holds no product. */
  function ClearCart(): (r: Cart)
    ensures Valid(r)
    ensures forall id :: !Contains(r, id)
  {
    []
  }

  /** Adding one product twice to a cart without it gives one item of quantity 2. */
  lemma AddTwiceMerges(c: Cart, p: Product)
    requires Valid(c) && !Contains(c, p.productId)
    ensures AddToCart(AddToCart(c, p), p) == c + [CartItem(p, 2)]
  {
    var c1 := AddToCart(c, p);
    var c2 := AddToCart(c1, p);
    assert IndexOf(c1, p.productId) == |c| by {
      IndexOfUnique(c1, p.productId, |c|);
    }
    assert c2 == c + [CartItem(p, 2)];
  }
}

=== FILE: cart_list.dfy ===
/**
 * The rules of the cart screen: the ordered pincode validator, the cart
 * total, and the gates that enable the pincode lookup and the checkout
 * button.
 */
module CartList {
  import opened Options
  import opened Strings
  import opened Products
  import opened CartContext
  import DeliveryEstimation

  const RequiredMessage := "Pincode is required"
  const DigitsMessage := "Pincode must contain only numbers"
  const LengthMessage := "Pincode must be 6 digits"
  const LookupFailedMessage := "Invalid pincode or service not available in this area"
  const ProceedLabel := "Proceed to Checkout"
  const BlockedLabel := "Enter Valid Pincode to Continue"

  /**
   * `validatePincode`: emptiness first, then non-digits (`/^\d+$/`), then the
   * length; the empty string means "no error".
   */
  function ValidatePincode(code: string): (msg: string)
    ensures code == "" ==> msg == "Pincode is required"
    ensures code != "" && !AllDigits(code) ==> msg == "Pincode must contain only numbers"
    ensures code != "" && AllDigits(code) && |code| != 6 ==> msg == "Pincode must be 6 digits"
    ensures msg == "" <==> DeliveryEstimation.IsPincodeValid(code)
  {
    if code == "" then RequiredMessage
    else if !AllDigits(code) then DigitsMessage
    else if |code| != 6 then LengthMessage
    else ""
  }

  /** A character that is not a digit decides the message, however long the input. */
  lemma NonDigitBeforeLength(code: string, i: int)
    requires 0 <= i < |code| && !IsDigit(code[i])
    ensures ValidatePincode(code) == "Pincode must contain only numbers"
  {
  }

  /** The line total of one item. */
  function Subtotal(item: CartItem): int {
    item.product.price * item.quantity
  }

  /** The sum of the line totals. */
  function Total(c: Cart): int {
    if |c| == 0 then 0 else Subtotal(c[0]) + Total(c[1..])
  }

  /** The total is additive over concatenation. */
  lemma {:induction false} TotalAppend(a: Cart, b: Cart)
    ensures Total(a + b) == Total(a) + Total(b)
    decreases |a|
  {
    if |a| == 0 {
      assert a + b == b;
    } else {
      assert (a + b)[1..] == a[1..] + b;
      TotalAppend(a[1..], b);
    }
  }

  /** `items.reduce((sum, item) => sum + price * quantity, 0)`, left to right. */
  method TotalAmount(items: Cart) returns (sum: int)
    ensures sum == Total(items)
    ensures |items| == 0 ==> sum == 0
  {
    sum := 0;
    var i := 0;
    while i < |items|
      invariant 0 <= i <= |items|
      invariant sum == Total(items[..i])
    {
      TotalAppend(items[..i], [items[i]]);
      assert items[..i + 1] == items[..i] + [items[i]];
      sum := sum + Subtotal(items[i]);
      i := i + 1;
    }
    assert items[..i] == items;
  }

  /** The total of a cart split around position `k`. */
  lemma SplitAt(c: Cart, k: int)
    requires 0 <= k < |c|
    ensures Total(c) == Total(c[..k]) + Subtotal(c[k]) + Total(c[k + 1..])
  {
    assert c == c[..k] + ([c[k]] + c[k + 1..]);
    TotalAppend(c[..k], [c[k]] + c[k + 1..]);
    TotalAppend([c[k]], c[k + 1..]);
    assert [c[k]][1..] == [];
  }

  /** One more unit adds one unit price to the line total. */
  lemma SubtotalOneMore(item: CartItem)
    ensures Subtotal(item.(quantity := item.quantity + 1)) == Subtotal(item) + item.product.price
  {
    var a, b := item.product.price, item.quantity;
    assert a * (b + 1) == a * b + a;
  }

  /** Replacing the item at position `k` changes the total by the difference of the two line totals. */
  lemma TotalReplaceAt(c: Cart, k: int, item: CartItem)
    requires 0 <= k < |c|
    ensures Total(c[..k] + [item] + c[k + 1..]) == Total(c) - Subtotal(c[k]) + Subtotal(item)
  {
    var r := c[..k] + [item] + c[k + 1..];
    SplitAt(c, k);
    SplitAt(r, k);
    assert r[..k] == c[..k];
    assert r[k] == item;
    assert r[k + 1..] == c[k + 1..];
  }

  /** Incrementing the one item with the id in a valid cart adds its unit price to the total. */
  lemma TotalAfterIncrement(c: Cart, id: int)
    requires UniqueIds(c) && Contains(c, id)
    ensures Total(IncrementWhere(c, id)) == Total(c) + c[IndexOf(c, id)].product.price
  {
    var k := IndexOf(c, id);
    var item := c[k].(quantity := c[k].quantity + 1);
    assert IncrementWhere(c, id) == c[..k] + [item] + c[k + 1..] by {
      IdOnlyAtIndex(c, id);
      IncrementSoleOccurrence(c, id, k);
    }
    TotalReplaceAt(c, k, item);
    SubtotalOneMore(c[k]);
  }

  /** Adding a product already in a valid cart adds its stored unit price to the total. */
  lemma TotalAfterAddExisting(c: Cart, p: Product)
    requires UniqueIds(c) && Contains(c, p.productId)
    ensures Total(AddToCart(c, p)) == Total(c) + c[IndexOf(c, p.productId)].product.price
  {
    assert AddToCart(c, p) == IncrementWhere(c, p.productId);
    TotalAfterIncrement(c, p.productId);
  }

  /**
   * Adding a product raises the total by one unit price: the stored
   * product's price when it is already in the cart, the new one's otherwise.
   */
  lemma TotalAfterAdd(c: Cart, p: Product)
    requires UniqueIds(c)
    ensures Total(AddToCart(c, p)) == Total(c) +
      (if Contains(c, p.productId) then c[IndexOf(c, p.productId)].product.price else p.price)
  {
    if Contains(c, p.productId) {
      TotalAfterAddExisting(c, p);
    } else {
      assert AddToCart(c, p) == c + [CartItem(p, 1)];
      TotalAppend(c, [CartItem(p, 1)]);
      assert [CartItem(p, 1)][1..] == [];
    }
  }

  /** Removing a product lowers the total by exactly its line total. */
  lemma TotalAfterRemove(c: Cart, id: int)
    requires UniqueIds(c)
    ensures Total(RemoveFromCart(c, id)) == Total(c) -
      (if Contains(c, id) then Subtotal(c[IndexOf(c, id)]) else 0)
  {
    if Contains(c, id) {
      var k := IndexOf(c, id);
      RemoveFromCartDeletesOne(c, id);
      SplitAt(c, k);
      TotalAppend(c[..k], c[k + 1..]);
    }
  }

  /** The pincode field of the cart screen and its error text ("" for none). */
  datatype PincodeState = PincodeState(pincode: string, error: string)

  /** `handlePincodeChange`: store the text and its validation message. */
  function HandlePincodeChange(code: string): (s: PincodeState)
    ensures s.pincode == code
    ensures s.error == ValidatePincode(code)
    ensures s.error == "" <==> DeliveryEstimation.IsPincodeValid(code)
  {
    PincodeState(code, ValidatePincode(code))
  }

  /** The lookup's `onError`: the field keeps its text and shows the lookup failure. */
  function LookupFailed(s: PincodeState): (s': PincodeState)
    ensures s'.pincode == s.pincode && s'.error != ""
    ensures s'.error == "Invalid pincode or service not available in this area"
  {
    s.(error := LookupFailedMessage)
  }

  /** `enabled: pincode.length === 6 && !pincodeError`. */
  predicate LookupEnabled(s: PincodeState) {
    |s.pincode| == 6 && s.error == ""
  }

  /** `pincode.length === 6 && !pincodeError && deliveryInfo`. */
  predicate IsValidForCheckout(s: PincodeState, deliveryInfo: Option<DeliveryEstimation.PincodeInfo>) {
    |s.pincode| == 6 && s.error == "" && deliveryInfo.Some?
  }

  /**
   * After a keystroke the lookup runs exactly for six-digit pincodes, and
   * checkout is possible exactly when it has also returned data.
   */
  lemma GatesAfterChange(code: string, deliveryInfo: Option<DeliveryEstimation.PincodeInfo>)
    ensures LookupEnabled(HandlePincodeChange(code)) <==> DeliveryEstimation.IsPincodeValid(code)
    ensures IsValidForCheckout(HandlePincodeChange(code), deliveryInfo) <==>
      DeliveryEstimation.IsPincodeValid(code) && deliveryInfo.Some?
  {
  }

  /** The footer's checkout button: whether it can be pressed, and its caption. */
  datatype CheckoutButton = CheckoutButton(enabled: bool, caption: string)

  /**
   * `renderFooter`: an empty cart has no footer and so no checkout button;
   * otherwise the button is enabled exactly by `isValidForCheckout`, and its
   * caption says so.
   */
  function Footer(items: Cart, s: PincodeState, deliveryInfo: Option<DeliveryEstimation.PincodeInfo>): (b: Option<CheckoutButton>)
    ensures b.None? <==> |items| == 0
    ensures b.Some? ==> (b.value.enabled <==> IsValidForCheckout(s, deliveryInfo))
    ensures b.Some? ==> (b.value.caption == ProceedLabel <==> b.value.enabled)
    ensures b.Some? ==> b.value.caption in {ProceedLabel, BlockedLabel}
  {
    if |items| == 0 then None
    else
      var ok := IsValidForCheckout(s, deliveryInfo);
      Some(CheckoutButton(ok, if ok then ProceedLabel else BlockedLabel))
  }

  /**
   * Checkout can be pressed exactly when the cart has items, the pincode has
   * six characters and no error, and the lookup has returned data.
   */
  lemma CheckoutPossible(items: Cart, s: PincodeState, deliveryInfo: Option<DeliveryEstimation.PincodeInfo>)
    ensures (Footer(items, s, deliveryInfo).Some? && Footer(items, s, deliveryInfo).value.enabled) <==>
      |items| > 0 && |s.pincode| == 6 && s.error == "" && deliveryInfo.Some?
    ensures forall code :: Footer(items, HandlePincodeChange(code), deliveryInfo).Some? ==>
      (Footer(items, HandlePincodeChange(code), deliveryInfo).value.enabled <==>
         DeliveryEstimation.IsPincodeValid(code) && deliveryInfo.Some?)
  {
    forall code | Footer(items, HandlePincodeChange(code), deliveryInfo).Some?
      ensures Footer(items, HandlePincodeChange(code), deliveryInfo).value.enabled <==>
        DeliveryEstimation.IsPincodeValid(code) && deliveryInfo.Some?
    {
      GatesAfterChange(code, deliveryInfo);
    }
  }

  /**
   * Checkout needs the lookup gate and data; it ignores the stock and cutoff
   * verdict, and a failed lookup closes both gates.
   */
  lemma CheckoutGate(s: PincodeState, deliveryInfo: Option<DeliveryEstimation.PincodeInfo>)
    ensures IsValidForCheckout(s, deliveryInfo) <==> LookupEnabled(s) && deliveryInfo.Some?
    ensures !LookupEnabled(LookupFailed(s)) && !IsValidForCheckout(LookupFailed(s), deliveryInfo)
  {
  }
}

=== FILE: delivery_countdown.dfy ===
/**
 * The countdown shown under a same-day estimate: the per-tick computation
 * `calculateTimeLeft` over epoch milliseconds, and the display rule.
 * The one-second timer that calls it is not modelled; a tick is one call.
 */
module DeliveryCountdown {
  import opened Options
  import opened Strings

  const MillisPerHour := 3600000
  const MillisPerMinute := 60000
  const MillisPerSecond := 1000

  datatype TimeLeft = TimeLeft(hours: nat, minutes: nat, seconds: nat) {

    predicate IsZero() {
      hours == 0 && minutes == 0 && seconds == 0
    }

    /** The milliseconds the three components account for. */
    function Millis(): int {
      hours * MillisPerHour + minutes * MillisPerMinute + seconds * MillisPerSecond
    }

    function TotalSeconds(): int {
      hours * 3600 + minutes * 60 + seconds
    }
  }

  /** The component state before the first tick. */
  const InitialTimeLeft := TimeLeft(0, 0, 0)

  /** A quotient and remainder that fit a unit of `u` milliseconds are Dafny's `/` and `%`. */
  lemma DivModUnique(d: int, u: int, q: int, r: int)
    requires u == MillisPerMinute || u == MillisPerSecond
    requires d == q * u + r && 0 <= r < u
    ensures d / u == q && d % u == r
  {
  }

  /** Taking the remainder by an hour or a minute first does not change the smaller unit's remainder. */
  lemma ModOfMod(d: int)
    requires d >= 0
    ensures (d % MillisPerHour) % MillisPerMinute == d % MillisPerMinute
    ensures (d % MillisPerMinute) % MillisPerSecond == d % MillisPerSecond
  {
    var rh := d % MillisPerHour;
    assert d == (d / MillisPerHour * 60) * MillisPerMinute + rh;
    assert rh == rh / MillisPerMinute * MillisPerMinute + rh % MillisPerMinute;
    DivModUnique(d, MillisPerMinute, d / MillisPerHour * 60 + rh / MillisPerMinute, rh % MillisPerMinute);
    var rm := d % MillisPerMinute;
    assert d == (d / MillisPerMinute * 60) * MillisPerSecond + rm;
    assert rm == rm / MillisPerSecond * MillisPerSecond + rm % MillisPerSecond;
    DivModUnique(d, MillisPerSecond, d / MillisPerMinute * 60 + rm / MillisPerSecond, rm % MillisPerSecond);
  }

  /**
   * The `Math.floor` decomposition of a positive difference: minutes and
   * seconds below 60, and the components reproduce the difference up to the
   * dropped milliseconds.
   */
  function Decompose(difference: int): (t: TimeLeft)
    requires difference > 0
    ensures t.minutes < 60 && t.seconds < 60
    ensures t.Millis() <= difference < t.Millis() + MillisPerSecond
  {
    var hours := difference / MillisPerHour;
    var minutes := (difference % MillisPerHour) / MillisPerMinute;
    var seconds := (difference % MillisPerMinute) / MillisPerSecond;
    ModOfMod(difference);
    TimeLeft(hours, minutes, seconds)
  }

  /** Only one hours/minutes/seconds triple with those bounds fits a difference. */
  lemma DecomposeUnique(difference: int, t: TimeLeft)
    requires difference > 0
    requires t.minutes < 60 && t.seconds < 60
    requires t.Millis() <= difference < t.Millis() + MillisPerSecond
    ensures t == Decompose(difference)
  {
    var u := Decompose(difference);
    var a := t.minutes * MillisPerMinute + t.seconds * MillisPerSecond + (difference - t.Millis());
    var b := u.minutes * MillisPerMinute + u.seconds * MillisPerSecond + (difference - u.Millis());
    assert 0 <= a < MillisPerHour && 0 <= b < MillisPerHour;
    assert t.hours * MillisPerHour + a == u.hours * MillisPerHour + b;
    assert t.hours == u.hours;
    var a' := t.seconds * MillisPerSecond + (difference - t.Millis());
    var b' := u.seconds * MillisPerSecond + (difference - u.Millis());
    assert 0 <= a' < MillisPerMinute && 0 <= b' < MillisPerMinute;
    assert t.minutes * MillisPerMinute + a' == u.minutes * MillisPerMinute + b';
    assert t.minutes == u.minutes;
  }

  /**
   * One tick of `calculateTimeLeft` with the cutoff and the current instant
   * in epoch milliseconds: a missing cutoff keeps the current state, an
   * expired one gives zeros, otherwise the floor decomposition.
   */
  function CalculateTimeLeft(cutoff: Option<int>, now: int, current: TimeLeft): (t: TimeLeft)
    ensures cutoff.None? ==> t == current
    ensures cutoff.Some? && cutoff.value - now <= 0 ==> t.IsZero()
    ensures cutoff.Some? && cutoff.value - now > 0 ==>
      t.minutes < 60 && t.seconds < 60 &&
      t.Millis() <= cutoff.value - now < t.Millis() + MillisPerSecond
  {
    if cutoff.None? then current
    else
      var difference := cutoff.value - now;
      if difference <= 0 then TimeLeft(0, 0, 0) else Decompose(difference)
  }

  /** With a cutoff, the state counts the whole seconds left, and never goes below zero. */
  lemma TimeLeftCountsWholeSeconds(cutoff: int, now: int, current: TimeLeft)
    ensures var t := CalculateTimeLeft(Some(cutoff), now, current);
      t.TotalSeconds() == if cutoff - now <= 0 then 0 else (cutoff - now) / MillisPerSecond
  {
    var d := cutoff - now;
    if d > 0 {
      var t := Decompose(d);
      assert t.Millis() == t.TotalSeconds() * 1000;
      assert t.TotalSeconds() * 1000 <= d < t.TotalSeconds() * 1000 + 1000;
    }
  }

  /** A later tick never shows more time left than an earlier one. */
  lemma TimeLeftNonIncreasing(cutoff: int, now: int, later: int, current: TimeLeft, current': TimeLeft)
    requires now <= later
    ensures CalculateTimeLeft(Some(cutoff), later, current').TotalSeconds()
         <= CalculateTimeLeft(Some(cutoff), now, current).TotalSeconds()
  {
    TimeLeftCountsWholeSeconds(cutoff, now, current);
    TimeLeftCountsWholeSeconds(cutoff, later, current');
    var x, y := cutoff - later, cutoff - now;
    if x > 0 {
      assert x / 1000 * 1000 <= x <= y < (y / 1000 + 1) * 1000;
      assert x / 1000 <= y / 1000;
    }
  }

  /**
   * The state reads as expired exactly when less than one second is left,
   * which includes a cutoff still up to 999 ms in the future.
   */
  lemma ExpiredIffUnderOneSecond(cutoff: int, now: int, current: TimeLeft)
    ensures CalculateTimeLeft(Some(cutoff), now, current).IsZero() <==> cutoff - now < MillisPerSecond
  {
    TimeLeftCountsWholeSeconds(cutoff, now, current);
  }

  /** Once expired, every later tick stays expired. */
  lemma ExpiredStaysExpired(cutoff: int, now: int, later: int, current: TimeLeft, current': TimeLeft)
    requires now <= later
    requires CalculateTimeLeft(Some(cutoff), now, current).IsZero()
    ensures CalculateTimeLeft(Some(cutoff), later, current').IsZero()
  {
    ExpiredIffUnderOneSecond(cutoff, now, current);
    ExpiredIffUnderOneSecond(cutoff, later, current');
  }

  /** What the component renders. */
  datatype Display = NoLongerAvailable | Clock(hours: string, minutes: string, seconds: string)

  /**
   * The render rule: all-zero components show the "no longer available" text,
   * anything else the two-digit padded `HH:MM:SS` blocks, each of which reads
   * back as its component.
   */
  function Render(t: TimeLeft): (d: Display)
    ensures d == NoLongerAvailable <==> t.IsZero()
    ensures d.Clock? ==> |d.hours| >= 2 && |d.minutes| >= 2 && |d.seconds| >= 2
    ensures d.Clock? && t.minutes < 60 && t.seconds < 60 ==> |d.minutes| == 2 && |d.seconds| == 2
    ensures d.Clock? && t.hours < 100 ==> |d.hours| == 2
    ensures d.Clock? && t.hours >= 10 ==> d.hours[0] != '0'
    ensures d.Clock? ==>
      && AllDigits(d.hours) && AllDigits(d.minutes) && AllDigits(d.seconds)
      && ParseNat(d.hours) == t.hours && ParseNat(d.minutes) == t.minutes && ParseNat(d.seconds) == t.seconds
  {
    if t.IsZero() then NoLongerAvailable
    else Clock(TwoDigits(t.hours), TwoDigits(t.minutes), TwoDigits(t.seconds))
  }

  /**
   * A cutoff 90 seconds ahead shows 00:01:30 at once and the "no longer
   * available" text 91 seconds later.
   */
  lemma NinetySecondCountdown(start: int)
    ensures Render(CalculateTimeLeft(Some(start + 90000), start, InitialTimeLeft))
         == Clock("00", "01", "30")
    ensures Render(CalculateTimeLeft(Some(start + 90000), start + 91000, InitialTimeLeft)) == NoLongerAvailable
  {
    var t := CalculateTimeLeft(Some(start + 90000), start, InitialTimeLeft);
    assert (start + 90000) - start == 90000;
    assert Decompose(90000) == TimeLeft(0, 1, 30);
    assert t == TimeLeft(0, 1, 30);
    assert TwoDigits(0) == "00" && TwoDigits(1) == "01" && TwoDigits(30) == "30";
    var t' := CalculateTimeLeft(Some(start + 90000), start + 91000, InitialTimeLeft);
    assert t'.IsZero();
  }
}

=== FILE: delivery_estimation.dfy ===
/**
 * The delivery rule evaluator of the product page: the estimate
 * (`getDeliveryEstimate`) and the status verdict (`checkDeliveryPossibility`)
 * computed from the pincode lookup result, the stock flag and the local clock.
 *
 * The clock is passed in as a `LocalTime`; a calendar date is represented as a
 * day offset from today (0 = today, 1 = tomorrow, n = today + n days) instead
 * of a locale-formatted string.
 */
module DeliveryEstimation {
  import opened Options
  import opened Strings

  /** A local wall-clock reading: a day index and the time of day. */
  datatype LocalTime = LocalTime(day: int, hour: int, minute: int, second: int, millis: int) {

    /** What `Date.getHours()` etc. can return. */
    predicate Valid() {
      0 <= hour < 24 && 0 <= minute < 60 && 0 <= second < 60 && 0 <= millis < 1000
    }

    function MinuteOfDay(): int {
      hour * 60 + minute
    }

    /** Milliseconds since the start of day 0 (`getTime()` with no time-zone shifts). */
    function EpochMillis(): int {
      day * 86400000 + hour * 3600000 + minute * 60000 + second * 1000 + millis
    }

    /** `now.setHours(h, 0, 0, 0)`: the same day at `h` o'clock sharp. */
    function AtHour(h: int): LocalTime {
      LocalTime(day, h, 0, 0, 0)
    }
  }

  /** The pincode lookup response: `logistics_provider` and `delivery_tat_days`. */
  datatype PincodeInfo = PincodeInfo(logisticsProvider: string, deliveryTatDays: int)

  /** The closed set of providers the `switch` recognises. */
  datatype Provider = ProviderA | ProviderB | GeneralPartners | Unrecognised

  /** The `switch` on the provider string, which compares with `===`. */
  function ProviderOf(name: string): Provider {
    if name == "Provider A" then ProviderA
    else if name == "Provider B" then ProviderB
    else if name == "General Partners" then GeneralPartners
    else Unrecognised
  }

  const CutoffHourA := 17
  const CutoffHourB := 9
  const MinTatDays := 2
  const MaxTatDays := 5

  const SameDayMessage := "Same-day delivery"
  const NextDayMessage := "Next-day delivery"

  datatype DeliveryEstimate = DeliveryEstimate(
    dateOffset: int,
    message: string,
    cutoffTime: Option<LocalTime>,
    showCountdown: bool
  )

  /** `/^\d{6}$/.test(code)`: exactly six decimal digits. */
  predicate IsPincodeValid(code: string) {
    |code| == 6 && AllDigits(code)
  }

  /**
   * The same-day test of the two cutoff providers: strictly before the cutoff
   * hour, or inside the cutoff hour while the minute is still 0. Seconds and
   * milliseconds are not looked at.
   */
  predicate SameDayEligible(cutoffHour: int, now: LocalTime) {
    now.hour < cutoffHour || (now.hour == cutoffHour && now.minute == 0)
  }

  /** On a valid clock the same-day test is "at or before hh:00 to the minute". */
  lemma SameDayByMinuteOfDay(cutoffHour: int, now: LocalTime)
    requires now.Valid()
    ensures SameDayEligible(cutoffHour, now) <==> now.MinuteOfDay() <= cutoffHour * 60
  {
  }

  /** The estimate of a provider with a same-day cutoff at `cutoffHour`. */
  function CutoffRule(cutoffHour: int, now: LocalTime): (e: DeliveryEstimate)
    ensures e.dateOffset == 0 <==> SameDayEligible(cutoffHour, now)
    ensures e.dateOffset == 0 || e.dateOffset == 1
    ensures e.showCountdown <==> e.cutoffTime.Some?
    ensures e.cutoffTime.Some? ==> e.cutoffTime.value == now.AtHour(cutoffHour)
    ensures e.cutoffTime.Some? <==> e.dateOffset == 0
    ensures e.message == (if e.dateOffset == 0 then SameDayMessage else NextDayMessage)
  {
    if SameDayEligible(cutoffHour, now) then
      DeliveryEstimate(0, SameDayMessage, Some(now.AtHour(cutoffHour)), true)
    else
      DeliveryEstimate(1, NextDayMessage, None, false)
  }

  /** The General Partners window: the turnaround clamped into [2, 5]. */
  function ClampTat(tat: int): (d: int)
    ensures MinTatDays <= d <= MaxTatDays
    ensures MinTatDays <= tat <= MaxTatDays ==> d == tat
    ensures tat < MinTatDays ==> d == MinTatDays
    ensures tat > MaxTatDays ==> d == MaxTatDays
  {
    if tat < MinTatDays then MinTatDays else if tat > MaxTatDays then MaxTatDays else tat
  }

  /** Clamping twice is clamping once. */
  lemma ClampTatIdempotent(tat: int)
    ensures ClampTat(ClampTat(tat)) == ClampTat(tat)
  {
  }

  /** The template literal `Delivery in ${n} days`. */
  function DaysMessage(n: nat): (m: string)
    ensures |m| >= 18
    ensures m[..12] == "Delivery in "
    ensures m[|m| - 5..] == " days"
    ensures AllDigits(m[12..|m| - 5]) && ParseNat(m[12..|m| - 5]) == n
    ensures n < 10 <==> |m| == 18
    ensures n > 0 ==> m[12] != '0'
  {
    var digits := NatToString(n);
    var m := "Delivery in " + digits + " days";
    assert m[12..|m| - 5] == digits;
    ParseNatToString(n);
    m
  }

  /**
   * `getDeliveryEstimate`: no estimate without lookup data or stock, or for an
   * unrecognised provider; otherwise the provider's rule.
   */
  function GetDeliveryEstimate(info: Option<PincodeInfo>, inStock: bool, now: LocalTime): (r: Option<DeliveryEstimate>)
    ensures r.Some? <==> inStock && info.Some? && ProviderOf(info.value.logisticsProvider) != Unrecognised
    ensures r.Some? ==> (r.value.showCountdown <==> r.value.cutoffTime.Some?)
    ensures r.Some? ==> 0 <= r.value.dateOffset <= MaxTatDays
    ensures r.Some? && r.value.cutoffTime.Some? ==> r.value.dateOffset == 0 && r.value.cutoffTime.value.day == now.day
  {
    if info.None? || !inStock then None
    else
      match ProviderOf(info.value.logisticsProvider)
      case ProviderA => Some(CutoffRule(CutoffHourA, now))
      case ProviderB => Some(CutoffRule(CutoffHourB, now))
      case GeneralPartners =>
        var days := ClampTat(info.value.deliveryTatDays);
        Some(DeliveryEstimate(days, DaysMessage(days), None, false))
      case Unrecognised => None
  }

  /**
   * The lookup record as it is left after `getDeliveryEstimate`: for General
   * Partners the clamped turnaround is written back into the record.
   */
  function RecordAfterEstimate(info: Option<PincodeInfo>, inStock: bool): (r: Option<PincodeInfo>)
    ensures r.Some? <==> info.Some?
    ensures r.Some? ==> r.value.logisticsProvider == info.value.logisticsProvider
    ensures r.Some? && !(inStock && ProviderOf(info.value.logisticsProvider) == GeneralPartners) ==> r == info
    ensures r.Some? && inStock && ProviderOf(info.value.logisticsProvider) == GeneralPartners ==>
      r.value.deliveryTatDays == ClampTat(info.value.deliveryTatDays)
  {
    if info.Some? && inStock && ProviderOf(info.value.logisticsProvider) == GeneralPartners then
      Some(info.value.(deliveryTatDays := ClampTat(info.value.deliveryTatDays)))
    else
      info
  }

  /**
   * Re-evaluating after the write-back gives the same estimate, and a second
   * write-back changes nothing: the mutation is harmless because the clamp is
   * idempotent.
   */
  lemma EstimateStableUnderWriteBack(info: Option<PincodeInfo>, inStock: bool, now: LocalTime)
    ensures GetDeliveryEstimate(RecordAfterEstimate(info, inStock), inStock, now) == GetDeliveryEstimate(info, inStock, now)
    ensures RecordAfterEstimate(RecordAfterEstimate(info, inStock), inStock) == RecordAfterEstimate(info, inStock)
  {
    if info.Some? {
      ClampTatIdempotent(info.value.deliveryTatDays);
    }
  }

  /** Provider A: same-day up to 17:00 to the minute, next-day after. */
  lemma ProviderAEstimate(tat: int, now: LocalTime)
    requires now.Valid()
    ensures var r := GetDeliveryEstimate(Some(PincodeInfo("Provider A", tat)), true, now);
      && (now.MinuteOfDay() <= 17 * 60 ==>
            r == Some(DeliveryEstimate(0, "Same-day delivery", Some(LocalTime(now.day, 17, 0, 0, 0)), true)))
      && (now.MinuteOfDay() > 17 * 60 ==>
            r == Some(DeliveryEstimate(1, "Next-day delivery", None, false)))
  {
    SameDayByMinuteOfDay(CutoffHourA, now);
  }

  /** Provider B: the same rule with 09:00 as the cutoff. */
  lemma ProviderBEstimate(tat: int, now: LocalTime)
    requires now.Valid()
    ensures var r := GetDeliveryEstimate(Some(PincodeInfo("Provider B", tat)), true, now);
      && (now.MinuteOfDay() <= 9 * 60 ==>
            r == Some(DeliveryEstimate(0, "Same-day delivery", Some(LocalTime(now.day, 9, 0, 0, 0)), true)))
      && (now.MinuteOfDay() > 9 * 60 ==>
            r == Some(DeliveryEstimate(1, "Next-day delivery", None, false)))
  {
    SameDayByMinuteOfDay(CutoffHourB, now);
  }

  /**
   * General Partners: delivery in clamp(tat, 2, 5) days, announced with that
   * number, never with a cutoff or a countdown; the clock plays no part.
   */
  lemma GeneralPartnersEstimate(tat: int, now: LocalTime, later: LocalTime)
    ensures var r := GetDeliveryEstimate(Some(PincodeInfo("General Partners", tat)), true, now);
      && r.Some?
      && 2 <= r.value.dateOffset <= 5
      && r.value.dateOffset == ClampTat(tat)
      && r.value.message == "Delivery in " + NatToString(r.value.dateOffset) + " days"
      && r.value.cutoffTime.None? && !r.value.showCountdown
      && r == GetDeliveryEstimate(Some(PincodeInfo("General Partners", tat)), true, later)
  {
  }

  /** Seconds and milliseconds never influence the estimate. */
  lemma EstimateIgnoresSeconds(info: Option<PincodeInfo>, inStock: bool, now: LocalTime, now': LocalTime)
    requires now.day == now'.day && now.hour == now'.hour && now.minute == now'.minute
    ensures GetDeliveryEstimate(info, inStock, now) == GetDeliveryEstimate(info, inStock, now')
  {
  }

  datatype Severity = Error | Warning | Success

  /** The `{possible, message, type}` verdict. */
  datatype DeliveryStatus = DeliveryStatus(possible: bool, message: string, kind: Severity)

  const OutOfStockMessage := "Product is currently out of stock"
  const InvalidPincodeMessage := "Invalid pincode"
  const CutoffPassedMessage := "Cutoff time passed for same-day delivery"

  /** `validationError || 'Invalid pincode'`: a missing or empty error falls back to the default. */
  function LookupErrorMessage(validationError: Option<string>): (m: string)
    ensures m != ""
    ensures validationError.Some? && validationError.value != "" ==> m == validationError.value
    ensures validationError.None? || validationError.value == "" ==> m == "Invalid pincode"
  {
    if validationError.Some? && validationError.value != "" then validationError.value else InvalidPincodeMessage
  }

  /** Whether a cutoff provider's verdict turns to a warning: the hour alone decides. */
  predicate CutoffHourReached(provider: Provider, now: LocalTime) {
    match provider
    case ProviderA => now.hour >= CutoffHourA
    case ProviderB => now.hour >= CutoffHourB
    case _ => false
  }

  /**
   * `checkDeliveryPossibility`: stock first, then lookup data, then the
   * provider's cutoff hour; everything else is a silent success.
   */
  function CheckDeliveryPossibility(info: Option<PincodeInfo>, inStock: bool, validationError: Option<string>, now: LocalTime): (r: DeliveryStatus)
    ensures r.possible <==> r.kind != Error
    ensures r.kind == Error <==> !inStock || info.None?
    ensures !inStock ==> r == DeliveryStatus(false, "Product is currently out of stock", Error)
    ensures inStock && info.None? ==> r.message == LookupErrorMessage(validationError)
    ensures r.kind == Warning <==>
      inStock && info.Some? && CutoffHourReached(ProviderOf(info.value.logisticsProvider), now)
    ensures r.kind == Warning ==> r.message == "Cutoff time passed for same-day delivery"
    ensures r.kind == Success ==> r.message == ""
  {
    if !inStock then
      DeliveryStatus(false, OutOfStockMessage, Error)
    else if info.None? then
      DeliveryStatus(false, LookupErrorMessage(validationError), Error)
    else if CutoffHourReached(ProviderOf(info.value.logisticsProvider), now) then
      DeliveryStatus(true, CutoffPassedMessage, Warning)
    else
      DeliveryStatus(true, "", Success)
  }

  /**
   * The verdict and the estimate agree on the error cases: an error verdict
   * always comes with no estimate. The converse fails only for an
   * unrecognised provider, which gets no estimate and a success verdict.
   */
  lemma StatusConsistentWithEstimate(info: Option<PincodeInfo>, inStock: bool, validationError: Option<string>, now: LocalTime)
    ensures var s := CheckDeliveryPossibility(info, inStock, validationError, now);
      var e := GetDeliveryEstimate(info, inStock, now);
      && (s.kind == Error ==> e.None?)
      && (e.None? && s.kind != Error ==>
            ProviderOf(info.value.logisticsProvider) == Unrecognised && s == DeliveryStatus(true, "", Success))
  {
  }

  /**
   * For the two cutoff providers the estimate and the verdict disagree at
   * exactly one minute of the day: at hh:00 of the cutoff hour the estimate
   * still offers same-day delivery while the verdict warns that the cutoff has
   * passed. At every other time exactly one of the two holds.
   */
  lemma CutoffBoundaryDisagreement(name: string, tat: int, validationError: Option<string>, now: LocalTime)
    requires now.Valid()
    requires ProviderOf(name) == ProviderA || ProviderOf(name) == ProviderB
    ensures var h := if ProviderOf(name) == ProviderA then 17 else 9;
      var e := GetDeliveryEstimate(Some(PincodeInfo(name, tat)), true, now).value;
      var s := CheckDeliveryPossibility(Some(PincodeInfo(name, tat)), true, validationError, now);
      && ((e.dateOffset == 0 && s.kind == Warning) <==> (now.hour == h && now.minute == 0))
      && (e.dateOffset == 0 || s.kind == Warning)
  {
  }

  /**
   * Two end-to-end readings: Provider A at noon with stock is a same-day
   * estimate with a 17:00 cutoff and a silent success; General Partners with a
   * seven-day turnaround is delivered in five days.
   */
  lemma EndToEndScenarios(day: int)
    ensures var now := LocalTime(day, 12, 0, 0, 0);
      var a := Some(PincodeInfo("Provider A", 0));
      && GetDeliveryEstimate(a, true, now)
           == Some(DeliveryEstimate(0, "Same-day delivery", Some(LocalTime(day, 17, 0, 0, 0)), true))
      && CheckDeliveryPossibility(a, true, None, now) == DeliveryStatus(true, "", Success)
    ensures var now := LocalTime(day, 12, 0, 0, 0);
      GetDeliveryEstimate(Some(PincodeInfo("General Partners", 7)), true, now)
        == Some(DeliveryEstimate(5, "Delivery in 5 days", None, false))
  {
    assert NatToString(5) == "5";
    assert DaysMessage(5) == "Delivery in " + "5" + " days" == "Delivery in 5 days";
  }
}

=== FILE: delivery_flow.dfy ===
/**
 * How the delivery widget combines its parts when rendering: the countdown
 * is mounted for a possible status with lookup data and an estimate that asks
 * for one, and is handed the estimate's cutoff.
 */
module DeliveryFlow {
  import opened Options
  import opened DeliveryEstimation
  import DeliveryCountdown

  /** `deliveryStatus.possible && pincodeInfo && deliveryEstimate?.showCountdown`. */
  predicate CountdownShown(status: DeliveryStatus, info: Option<PincodeInfo>, estimate: Option<DeliveryEstimate>) {
    status.possible && info.Some? && estimate.Some? && estimate.value.showCountdown
  }

  /**
   * Whenever the countdown is mounted the estimate has a cutoff, so the
   * non-null assertion on `cutoffTime` never sees null; the countdown only
   * appears for same-day estimates.
   */
  lemma CountdownHasCutoff(info: Option<PincodeInfo>, inStock: bool, validationError: Option<string>, now: LocalTime)
    ensures var s := CheckDeliveryPossibility(info, inStock, validationError, now);
      var e := GetDeliveryEstimate(info, inStock, now);
      CountdownShown(s, info, e) ==> e.value.cutoffTime.Some? && e.value.dateOffset == 0
  {
  }

  /** The first tick of the countdown for an estimate. */
  function FirstTick(e: DeliveryEstimate, now: LocalTime): (t: DeliveryCountdown.TimeLeft)
    ensures e.cutoffTime.None? ==> t == DeliveryCountdown.InitialTimeLeft
    ensures e.cutoffTime.Some? ==>
      var d := e.cutoffTime.value.EpochMillis() - now.EpochMillis();
      t.TotalSeconds() == if d <= 0 then 0 else d / 1000
    ensures t.minutes < 60 && t.seconds < 60
  {
    var cutoff := if e.cutoffTime.Some? then Some(e.cutoffTime.value.EpochMillis()) else None;
    DeliveryCountdown.CalculateTimeLeft(cutoff, now.EpochMillis(), DeliveryCountdown.InitialTimeLeft)
  }

  /**
   * For a same-day estimate of a cutoff provider, the countdown is mounted,
   * never shows more hours than the cutoff hour, and shows the "no longer
   * available" text exactly in the last second before the cutoff and during
   * the cutoff minute itself, which the estimate still counts as same-day.
   */
  lemma SameDayCountdown(name: string, tat: int, validationError: Option<string>, now: LocalTime)
    requires now.Valid()
    requires ProviderOf(name) == ProviderA || ProviderOf(name) == ProviderB
    requires GetDeliveryEstimate(Some(PincodeInfo(name, tat)), true, now).value.dateOffset == 0
    ensures var h := if ProviderOf(name) == ProviderA then 17 else 9;
      var info := Some(PincodeInfo(name, tat));
      var e := GetDeliveryEstimate(info, true, now);
      var t := FirstTick(e.value, now);
      var sinceMidnight := now.hour * 3600000 + now.minute * 60000 + now.second * 1000 + now.millis;
      && CountdownShown(CheckDeliveryPossibility(info, true, validationError, now), info, e)
      && t.hours <= h
      && (DeliveryCountdown.Render(t) == DeliveryCountdown.NoLongerAvailable <==> sinceMidnight > h * 3600000 - 1000)
      && (now.hour == h ==> DeliveryCountdown.Render(t) == DeliveryCountdown.NoLongerAvailable)
  {
    var h := if ProviderOf(name) == ProviderA then 17 else 9;
    var e := GetDeliveryEstimate(Some(PincodeInfo(name, tat)), true, now).value;
    var cutoff := now.AtHour(h).EpochMillis();
    assert e.cutoffTime == Some(now.AtHour(h));
    DeliveryCountdown.ExpiredIffUnderOneSecond(cutoff, now.EpochMillis(), DeliveryCountdown.InitialTimeLeft);
    DeliveryCountdown.TimeLeftCountsWholeSeconds(cutoff, now.EpochMillis(), DeliveryCountdown.InitialTimeLeft);
  }
}

=== FILE: options.dfy ===
/** An optional value: JavaScript's `null` / `undefined` made explicit. */
module Options {

  datatype Option<+T> = None | Some(value: T) {

    /** The value, or `default` when absent (JavaScript's `??`). */
    function GetOr(default: T): T {
      match this
      case Some(v) => v
      case None => default
    }
  }
}

=== FILE: pincode_input.dfy ===
/**
 * The pincode text field: the keystroke filter `handleChangeText` and the
 * conditions for the valid style and the checkmark.
 */
module PincodeInput {
  import opened Strings
  import CartList
  import DeliveryEstimation

  const MaxLength := 6

  /** `/^\d*$/.test(text) && text.length <= 6`. */
  predicate Accepts(text: string) {
    AllDigits(text) && |text| <= MaxLength
  }

  /**
   * The value held after the field reports `text`: the new text when the
   * filter accepts it (the callback runs), the previous value otherwise.
   */
  function HandleChangeText(value: string, text: string): (r: string)
    ensures Accepts(text) ==> r == text
    ensures !Accepts(text) ==> r == value
    ensures Accepts(value) ==> Accepts(r)
  {
    if Accepts(text) then text else value
  }

  /** The value after a series of reported texts, applied in order. */
  function ApplyEdits(value: string, edits: seq<string>): (r: string)
    ensures Accepts(value) ==> Accepts(r)
    ensures r == value || r in edits
    decreases |edits|
  {
    if |edits| == 0 then value
    else ApplyEdits(HandleChangeText(value, edits[0]), edits[1..])
  }

  /** Clearing the field is always allowed. */
  lemma ClearingAccepted(value: string)
    ensures HandleChangeText(value, "") == ""
  {
  }

  /**
   * Any value reached from the empty field is digits only and at most six
   * long, so the cart's validator never reports non-digits for it.
   */
  lemma ReachableValuesNeverNonDigit(edits: seq<string>)
    ensures Accepts(ApplyEdits("", edits))
    ensures CartList.ValidatePincode(ApplyEdits("", edits)) != "Pincode must contain only numbers"
  {
  }

  datatype FieldStyle = ErrorStyle | ValidStyle | PlainStyle

  /** `error ? inputError : value.length === 6 ? inputValid : null`; the error is "" when absent. */
  function InputStyle(value: string, error: string): (s: FieldStyle)
    ensures s == ErrorStyle <==> error != ""
    ensures s == ValidStyle <==> error == "" && |value| == MaxLength
  {
    if error != "" then ErrorStyle else if |value| == MaxLength then ValidStyle else PlainStyle
  }

  /**
   * On the cart screen the field's error is the validator's message, so
   * after a keystroke the field is never plain: valid style exactly for six
   * digits, error style otherwise.
   */
  lemma StyleAfterChange(code: string)
    ensures var s := CartList.HandlePincodeChange(code);
      && (InputStyle(s.pincode, s.error) == ValidStyle <==> DeliveryEstimation.IsPincodeValid(code))
      && (InputStyle(s.pincode, s.error) == ErrorStyle <==> !DeliveryEstimation.IsPincodeValid(code))
  {
  }

  /** `!isLoading && value.length === 6 && !error`. */
  predicate ShowCheckmark(value: string, isLoading: bool, error: string) {
    !isLoading && |value| == MaxLength && error == ""
  }

  /** The checkmark is the valid style with the lookup settled. */
  lemma CheckmarkIsValidStyleNotLoading(value: string, isLoading: bool, error: string)
    ensures ShowCheckmark(value, isLoading, error) <==> InputStyle(value, error) == ValidStyle && !isLoading
  {
  }
}

=== FILE: product_list.dfy ===
/**
 * The infinite product list: the next-page rule handed to the paginated
 * query, the `loadMore` guard and the flattening of loaded pages.
 */
module ProductList {
  import opened Options
  import opened Products

  /** The paginated response of the catalogue service. */
  datatype ProductsPage = ProductsPage(
    items: seq<Product>,
    total: int,
    page: int,
    totalPages: int,
    hasNext: bool,
    hasPrev: bool
  )

  /** `pageParam = 1`: the first request asks for page 1. */
  const FirstPageParam := 1

  /** `({ pageParam = 1 })`: the page a query call fetches, 1 when no page is given. */
  function PageToFetch(pageParam: Option<int>): (n: int)
    ensures pageParam.None? ==> n == FirstPageParam
    ensures pageParam.Some? ==> n == pageParam.value
  {
    pageParam.GetOr(FirstPageParam)
  }

  /**
   * `getNextPageParam`: nothing after an empty page or the last page,
   * otherwise the following page number.
   */
  function GetNextPageParam(lastPage: ProductsPage): (r: Option<int>)
    ensures |lastPage.items| == 0 ==> r.None?
    ensures r.Some? <==> |lastPage.items| > 0 && lastPage.page < lastPage.totalPages
    ensures r.Some? ==> lastPage.page < r.value <= lastPage.totalPages
    ensures r.Some? ==> r.value == lastPage.page + 1
  {
    if |lastPage.items| == 0 then None
    else if lastPage.page < lastPage.totalPages then Some(lastPage.page + 1)
    else None
  }

  /** `hasNextPage`: the next-page rule gives a page for the last loaded page. */
  predicate HasNextPage(pages: seq<ProductsPage>) {
    |pages| > 0 && GetNextPageParam(pages[|pages| - 1]).Some?
  }

  /**
   * `loadMore`: the page it makes the query fetch, or nothing. A fetch needs
   * a non-empty last page that is not the catalogue's last, and no fetch in
   * flight; it asks for the page right after the last one loaded.
   */
  function LoadMore(pages: seq<ProductsPage>, isFetchingNextPage: bool): (request: Option<int>)
    ensures request.None? <==>
      || isFetchingNextPage
      || |pages| == 0
      || |pages[|pages| - 1].items| == 0
      || pages[|pages| - 1].page >= pages[|pages| - 1].totalPages
    ensures request.Some? ==> var last := pages[|pages| - 1];
      request.value == last.page + 1 && request.value <= last.totalPages
  {
    if HasNextPage(pages) && !isFetchingNextPage then
      Some(PageToFetch(GetNextPageParam(pages[|pages| - 1])))
    else
      None
  }

  /** Pages 1, 2, ..., n in loading order, as the query loads them from page 1 on. */
  predicate NumberedFromOne(pages: seq<ProductsPage>) {
    forall i :: 0 <= i < |pages| ==> pages[i].page == i + 1
  }

  /**
   * Starting from page 1, `loadMore` never asks for a page already loaded:
   * it asks for the next number, and loading that page keeps the numbering.
   */
  lemma LoadMoreNeverRepeatsPage(pages: seq<ProductsPage>, isFetchingNextPage: bool, next: ProductsPage)
    requires NumberedFromOne(pages)
    ensures var request := LoadMore(pages, isFetchingNextPage);
      request.Some? ==>
        && request.value == |pages| + 1
        && (forall i :: 0 <= i < |pages| ==> pages[i].page != request.value)
        && (next.page == request.value ==> NumberedFromOne(pages + [next]))
  {
    var request := LoadMore(pages, isFetchingNextPage);
    if request.Some? && next.page == request.value {
      var grown := pages + [next];
      forall i | 0 <= i < |grown|
        ensures grown[i].page == i + 1
      {
        if i < |pages| {
          assert grown[i] == pages[i];
        }
      }
    }
  }

  /**
   * The pages fetched run 1, 2, 3, ...: the first call fetches page 1, and
   * with pages 1..n loaded `loadMore` asks for page n + 1.
   */
  lemma FetchesConsecutivePages(first: ProductsPage, pages: seq<ProductsPage>)
    requires first.page == PageToFetch(None)
    requires NumberedFromOne(pages)
    ensures PageToFetch(None) == 1
    ensures NumberedFromOne([first])
    ensures LoadMore(pages, false).Some? ==> LoadMore(pages, false).value == |pages| + 1
  {
    LoadMoreNeverRepeatsPage(pages, false, first);
  }

  /** `pages.flatMap(page => page.items)`: every page's items, page after page. */
  function Flatten(pages: seq<ProductsPage>): (r: seq<Product>)
    ensures forall p :: p in r <==> exists i :: 0 <= i < |pages| && p in pages[i].items
    ensures |pages| > 0 ==> |pages[0].items| <= |r| && r[..|pages[0].items|] == pages[0].items
    ensures |pages| == 0 ==> r == []
    ensures |pages| == 1 ==> r == pages[0].items
  {
    if |pages| == 0 then []
    else
      var rest := Flatten(pages[1..]);
      assert forall i :: 0 < i < |pages| ==> pages[i] == pages[1..][i - 1];
      pages[0].items + rest
  }

  /** Loading a further page appends its items at the end of the list. */
  lemma {:induction false} FlattenAppend(pages: seq<ProductsPage>, more: seq<ProductsPage>)
    ensures Flatten(pages + more) == Flatten(pages) + Flatten(more)
    decreases |pages|
  {
    if |pages| == 0 {
      assert pages + more == more;
    } else {
      assert (pages + more)[1..] == pages[1..] + more;
      FlattenAppend(pages[1..], more);
    }
  }

  /** `data?.pages.flatMap(...) ?? []`: the displayed list, empty before any data. */
  function AllProducts(data: Option<seq<ProductsPage>>): (r: seq<Product>)
    ensures data.None? ==> r == []
    ensures data.Some? ==> forall p :: p in r <==> exists i :: 0 <= i < |data.value| && p in data.value[i].items
    ensures data.Some? ==> r == Flatten(data.value)
  {
    Flatten(data.GetOr([]))
  }
}

=== FILE: products.dfy ===
/**
 * The product record returned by the catalogue service. Prices are kept as
 * integers in minor currency units (paise) instead of floating point numbers.
 */
module Products {

  datatype Product = Product(
    productId: int,
    productName: string,
    price: int,
    productImage: string,
    inStock: bool
  )
}

=== FILE: strings.dfy ===
/**
 * Decimal digits and the two string conversions the core relies on:
 * `String(n)` / template interpolation of a non-negative integer, and
 * `padStart(width, fill)`.
 */
module Strings {

  /** `\d` of a JavaScript regular expression without the `u` flag: an ASCII digit. */
  predicate IsDigit(c: char) {
    '0' <= c <= '9'
  }

  predicate AllDigits(s: string) {
    forall i :: 0 <= i < |s| ==> IsDigit(s[i])
  }

  function DigitChar(d: nat): (c: char)
    requires d < 10
    ensures IsDigit(c)
  {
    (48 + d) as char
  }

  function DigitValue(c: char): (d: nat)
    requires IsDigit(c)
    ensures d < 10
    ensures DigitChar(d) == c
  {
    c as int - 48
  }

  /** Decimal rendering of a non-negative integer, most significant digit first. */
  function NatToString(n: nat): (s: string)
    ensures |s| >= 1
    ensures AllDigits(s)
    ensures n < 10 <==> |s| == 1
    ensures n > 0 ==> s[0] != '0'
    decreases n
  {
    if n < 10 then [DigitChar(n)] else NatToString(n / 10) + [DigitChar(n % 10)]
  }

  /** The value of a string of decimal digits (the reference for `NatToString`). */
  function ParseNat(s: string): nat
    requires AllDigits(s)
    decreases |s|
  {
    if |s| == 0 then 0 else ParseNat(s[..|s| - 1]) * 10 + DigitValue(s[|s| - 1])
  }

  /** Rendering then reading back a number gives the number. */
  lemma {:induction false} ParseNatToString(n: nat)
    ensures ParseNat(NatToString(n)) == n
    decreases n
  {
    var s := NatToString(n);
    if n < 10 {
      assert s[..0] == [];
    } else {
      ParseNatToString(n / 10);
      assert s[..|s| - 1] == NatToString(n / 10);
      assert DigitValue(s[|s| - 1]) == n % 10;
    }
  }

  /** Leading zeros do not change the value of a digit string. */
  lemma {:induction false} ParseNatLeadingZero(s: string)
    requires AllDigits(s)
    ensures AllDigits(['0'] + s)
    ensures ParseNat(['0'] + s) == ParseNat(s)
    decreases |s|
  {
    var t := ['0'] + s;
    if |s| == 0 {
      assert t[..0] == [];
    } else {
      assert t[..|t| - 1] == ['0'] + s[..|s| - 1];
      ParseNatLeadingZero(s[..|s| - 1]);
    }
  }

  function Repeat(c: char, k: nat): (r: string)
    ensures |r| == k
    ensures forall i :: 0 <= i < k ==> r[i] == c
  {
    if k == 0 then [] else [c] + Repeat(c, k - 1)
  }

  /**
   * `s.padStart(width, fill)` for a one-character fill: strings already
   * `width` long are returned unchanged, shorter ones get `fill` in front.
   */
  function PadStart(s: string, width: nat, fill: char): (r: string)
    ensures |s| >= width ==> r == s
    ensures |s| < width ==> |r| == width
    ensures r[|r| - |s|..] == s
    ensures forall i :: 0 <= i < |r| - |s| ==> r[i] == fill
  {
    if |s| >= width then s else Repeat(fill, width - |s|) + s
  }

  /**
   * `String(n).padStart(2, '0')`: one leading zero below ten, the plain
   * decimal rendering from ten on, and in every case a string that still
   * reads back as `n`.
   */
  function TwoDigits(n: nat): (r: string)
    ensures n < 10 ==> r == ['0', DigitChar(n)]
    ensures n >= 10 ==> r == NatToString(n)
    ensures |r| >= 2
    ensures AllDigits(r)
    ensures ParseNat(r) == n
  {
    var s := NatToString(n);
    var r := PadStart(s, 2, '0');
    ParseNatToString(n);
    if n < 10 then
      assert r == ['0'] + s;
      ParseNatLeadingZero(s);
      r
    else
      r
  }
}
